=== FILE: README.md ===
# Pet-store smoke-test service, modelled in Dafny

The service runs fifteen scripted smoke tests against a remote pet-store REST
API (pet, store and user families). Each test makes one or two HTTP calls,
classifies what came back as `PASSED`, `FAILED` or `ERROR`, and returns a
`TestResult` with a label, status code, duration, message and response body.
Between runs the service keeps three pieces of session state: the last pet id,
the last order id and the current username. Tests that need an existing
resource create one first (the *setup* test). A setup that does not pass ends
the dependent test with `ERROR` before its own call.

This project models that executor as pure functions. No networking is involved:

- `Model` (model.dfy) holds the vocabulary.
  - `Session` is the three session fields.
  - `Outcome` is what one HTTP call produced: a response with code and body, or an exception with its message.
  - `Parsed` is what reading a value out of a body produced (the pet name, the user's first name, the size of the pet list).
  - `Window` is the first and last clock reading of a test.
  - `Request` records which HTTP call was issued and with which id or name.
  - `TestResult` is the verdict record. A field the code never set is `None`.
  - `Judge` and `AfterSetup` state the classification policy once. Every test's contract is stated against them.
- `PetTests`, `StoreTests` and `UserTests` have one step function per test. Each takes the session, the clock readings and the call outcomes. Each returns a `Step`: the new session, the result and the calls issued, in order.
- `Runner` dispatches any of the fifteen tests. It also states the session invariant (an order id lies in 1..10, and the username is `testuser` followed by digits), proves every test keeps it, and runs a sequence of tests with a loop.
- `Text` renders numbers in decimal the way Java string concatenation does. It proves the rendering injective through a parse-back round trip, and defines `Contains` for statements about messages.

Two behaviours of the code that the model keeps:

- Add-pet and place-order store the new pet id or order id in the session before making the call (PetstoreTestService.java:26 and :286). So a failed create still leaves the id set, and the next get-pet fetches that id without running setup (`PetTests.FailedSetupLeavesPetId`).
- When a setup test does not pass, the dependent test returns without recording a duration. Delete-order is the one exception: it records the duration first (PetstoreTestService.java:409).

Two uniqueness claims hold only in part:

- Generated usernames are unique only when the millisecond clock has moved between calls (`UserTests.GeneratedNameInjective` is an if-and-only-if).
- Order ids repeat every ten milliseconds (`StoreTests.OrderIdsRepeat`), despite the source comment calling them unique.

## Model

| member | source | states |
|---|---|---|
| PetTests.AddPet | src/main/java/com/restfulbooker/service/PetstoreTestService.java:20-70 | the session's pet id becomes the clock reading whatever the call does; exactly one create call with that id; the verdict follows the policy with 200 as success; an exception yields ERROR carrying its message; the duration is always recorded; a completed call's code and body are recorded, and a thrown call records neither |
| PetTests.AddPetReportsPet | src/main/java/com/restfulbooker/service/PetstoreTestService.java:56-58 | on code 200 the verdict is PASSED and the message contains "Fluffy" and the created id |
| PetTests.AddPetFailureNamesCode | src/main/java/com/restfulbooker/service/PetstoreTestService.java:59-61 | any other completed code is FAILED and the message contains that code |
| PetTests.FetchPetStep | src/main/java/com/restfulbooker/service/PetstoreTestService.java:87-111 | the fetch half of get-pet: one fetch of the session's pet id; the verdict follows the policy with 200 as success and a readable name as evidence; an exception from the call is ERROR with its message; an unreadable name after a 200 is ERROR with code 200 kept; a completed call's code and body are recorded, and a thrown call records neither |
| PetTests.GetPet | src/main/java/com/restfulbooker/service/PetstoreTestService.java:72-112 | with a pet id, no setup runs and the only call fetches that id; without one, add-pet runs first; a setup that does not pass yields ERROR, no fetch, and no duration, code or body; otherwise the fetch uses the id just created; once the fetch is reached, the duration is recorded, an exception is ERROR with its message and an unreadable name after a 200 is ERROR with code 200 kept; once the fetch is reached, its code and body are recorded, and neither when it threw |
| PetTests.GetPetReportsName | src/main/java/com/restfulbooker/service/PetstoreTestService.java:97-100 | once the fetch is reached and returns 200 with a readable name, the verdict is PASSED and the message contains that name |
| PetTests.FailedSetupLeavesPetId | src/main/java/com/restfulbooker/service/PetstoreTestService.java:78-90 | after a get-pet whose setup failed, the next get-pet skips setup and fetches the id of the pet that was never created |
| PetTests.UpdatePet | src/main/java/com/restfulbooker/service/PetstoreTestService.java:114-163 | add-pet always runs first, whatever the session holds; a non-passing setup yields ERROR with no update call; otherwise the update targets the new pet's id and the verdict follows the policy; once setup passed, the put's code and body are recorded, and neither when it threw |
| PetTests.FindPetsByStatus | src/main/java/com/restfulbooker/service/PetstoreTestService.java:165-197 | one query for status "available", session untouched; the verdict follows the policy; an exception is ERROR with its message; an unreadable list after a 200 is ERROR with its message and code 200 kept; no body is recorded unless the test passes; a completed query's code is recorded, and no code when it threw |
| PetTests.FindPetsReportsCount | src/main/java/com/restfulbooker/service/PetstoreTestService.java:181-185 | a pass reports the count in the message and records the count summary as the body |
| PetTests.DeletePet | src/main/java/com/restfulbooker/service/PetstoreTestService.java:199-240 | add-pet always runs first and the delete targets the new id with the api key; the pet id is cleared exactly when setup and delete both return 200, and otherwise it equals the id just created; once setup passed, the delete's code and body are recorded, and neither when it threw |
| PetTests.DeletePetReportsId | src/main/java/com/restfulbooker/service/PetstoreTestService.java:225-227 | when setup and delete both return 200, the verdict is PASSED and the message names the id of the pet just created |
| PetTests.DeletedPetIsRecreated | src/main/java/com/restfulbooker/service/PetstoreTestService.java:225-228 | after a passing delete-pet the next get-pet starts with a fresh add-pet call |
| PetTests.MissingPetId | src/main/java/com/restfulbooker/service/PetstoreTestService.java:249 | for any clock reading a Java long can hold, the id asked for is a non-negative long |
| PetTests.MissingPetIdsDecrease | src/main/java/com/restfulbooker/service/PetstoreTestService.java:249 | a later clock reading asks for a smaller id, so no id is asked for twice |
| PetTests.PetNotFound | src/main/java/com/restfulbooker/service/PetstoreTestService.java:242-275 | fetches the largest Java long minus the clock; PASSED exactly on 404; every other completed response, 200 included, is FAILED and never ERROR; an exception is ERROR with its message; session untouched; a completed call's code and body are recorded, and a thrown call records neither |
| PetTests.PetNotFoundReportsId | src/main/java/com/restfulbooker/service/PetstoreTestService.java:261-266 | the message always names the id asked for, and when the code is not 404 it also names that code |
| StoreTests.OrderIdFrom | src/main/java/com/restfulbooker/service/PetstoreTestService.java:285-286 | the derived order id always lies in 1..10 |
| StoreTests.OrderIdsRepeat | src/main/java/com/restfulbooker/service/PetstoreTestService.java:285-286 | clock readings a multiple of ten apart give the same order id, so the ids are not unique |
| StoreTests.PlaceOrder | src/main/java/com/restfulbooker/service/PetstoreTestService.java:279-322 | the session's order id becomes the derived id, in 1..10, whatever the call does; one create call with that id; the verdict follows the policy; a completed call's code and body are recorded, and a thrown call records neither |
| StoreTests.PlaceOrderReportsId | src/main/java/com/restfulbooker/service/PetstoreTestService.java:308-310 | a pass reports the id it placed |
| StoreTests.FetchOrderStep | src/main/java/com/restfulbooker/service/PetstoreTestService.java:339-362 | the fetch half of get-order: one fetch of the session's order id, session untouched; the verdict follows the policy with 200 as success; an exception is ERROR with its message; a completed call's code and body are recorded, and a thrown call records neither |
| StoreTests.GetOrder | src/main/java/com/restfulbooker/service/PetstoreTestService.java:324-363 | with an order id, no setup runs and the fetch uses it; without one, place-order runs first and a non-passing setup yields ERROR with no fetch; once the fetch is reached, the duration is recorded, an exception is ERROR with its message; once the fetch is reached, its code and body are recorded, and neither when it threw |
| StoreTests.GetOrderReportsId | src/main/java/com/restfulbooker/service/PetstoreTestService.java:349-351 | once the fetch is reached and returns 200, the verdict is PASSED and the message names the order id fetched: the one held, or the one just placed |
| StoreTests.GetInventory | src/main/java/com/restfulbooker/service/PetstoreTestService.java:365-395 | one inventory call, session untouched; a body is recorded exactly when the test passes; a completed call's code is recorded, and no code when it threw; the body on a pass is the fixed text "Inventory data retrieved" |
| StoreTests.DeleteOrder | src/main/java/com/restfulbooker/service/PetstoreTestService.java:397-440 | place-order always runs first; a non-passing setup yields ERROR with the duration still recorded; the order id is absent exactly when setup and delete both return 200, and otherwise holds the new id; once setup passed, the delete's code and body are recorded, and neither when it threw |
| StoreTests.DeleteOrderReportsId | src/main/java/com/restfulbooker/service/PetstoreTestService.java:425-431 | once setup passed and the delete completes, the message names the order id just placed, whether the code is 200 or not |
| StoreTests.DeleteOrderForgetsPriorOrder | src/main/java/com/restfulbooker/service/PetstoreTestService.java:403-405 | nothing delete-order does depends on the order id the session held before |
| StoreTests.DeletedOrderIsReplaced | src/main/java/com/restfulbooker/service/PetstoreTestService.java:425-428 | after a passing delete-order the next get-order places a new order first |
| UserTests.GeneratedName | src/main/java/com/restfulbooker/service/PetstoreTestService.java:450 | a generated username is "testuser" followed by one or more decimal digits |
| UserTests.GeneratedNameInjective | src/main/java/com/restfulbooker/service/PetstoreTestService.java:450 | two clock readings give the same username exactly when they are equal |
| UserTests.CreateUser | src/main/java/com/restfulbooker/service/PetstoreTestService.java:444-488 | the session's username becomes the generated name whatever the call does; one create call for that name; the verdict follows the policy; a completed call's code and body are recorded, and a thrown call records neither |
| UserTests.CreateUserReportsName | src/main/java/com/restfulbooker/service/PetstoreTestService.java:474-476 | a pass reports the name it created |
| UserTests.CreateUserTwice | src/main/java/com/restfulbooker/service/PetstoreTestService.java:450 | two create-user runs with different readings leave different names, and the session holds the later one |
| UserTests.GetUser | src/main/java/com/restfulbooker/service/PetstoreTestService.java:490-528 | create-user always runs first and the fetch asks for the name just created; an unreadable first name after a 200 is ERROR with code 200 kept; once setup passed, the fetch's code and body are recorded, and neither when it threw |
| UserTests.GetUserReportsName | src/main/java/com/restfulbooker/service/PetstoreTestService.java:513-516 | when setup and fetch both return 200 and the first name is readable, the verdict is PASSED and the message contains that name |
| UserTests.UpdateUser | src/main/java/com/restfulbooker/service/PetstoreTestService.java:530-579 | create-user always runs first and the update targets the name just created; once setup passed, the put's code and body are recorded, and neither when it threw |
| UserTests.DeleteUser | src/main/java/com/restfulbooker/service/PetstoreTestService.java:581-619 | create-user always runs first and the delete targets the name just created; only when both return 200 is the username regenerated from the later reading; once setup passed, the delete's code and body are recorded, and neither when it threw |
| UserTests.DeleteUserReportsDeletedName | src/main/java/com/restfulbooker/service/PetstoreTestService.java:604-607 | a pass names the deleted user, and the regenerated name differs from it when the clock moved |
| UserTests.UserLogin | src/main/java/com/restfulbooker/service/PetstoreTestService.java:621-653 | logs in with the fixed account, not the session's user; session untouched; the verdict follows the policy; a completed call's code and body are recorded, and a thrown call records neither |
| Model.JudgeCases | src/main/java/com/restfulbooker/service/PetstoreTestService.java:56-67 | PASSED only for the expected code with readable evidence, FAILED exactly for another completed code, ERROR for an exception or unreadable evidence |
| Runner.Initial | src/main/java/com/restfulbooker/service/PetstoreTestService.java:14-16 | the starting session has no pet and no order and a generated username, and satisfies the session invariant |
| Runner.DispatchKeepsSessionOk | src/main/java/com/restfulbooker/service/PetstoreTestService.java:14-16 | every one of the fifteen tests keeps the session invariant |
| Runner.DispatchLabelsResult | src/main/java/com/restfulbooker/service/PetstoreTestService.java:20-22 | every result carries the label of the test that produced it |
| Runner.DispatchCallCount | src/main/java/com/restfulbooker/service/PetstoreTestService.java:78-85 | every test issues one call, or two exactly when it ran a setup test and that setup passed; get-pet and get-order run setup only when the session lacks their id |
| Runner.DispatchDuration | src/main/java/com/restfulbooker/service/PetstoreTestService.java:51-52 | a recorded duration is always the last clock reading minus the test's first one |
| Runner.DurationCoversSetup | src/main/java/com/restfulbooker/service/PetstoreTestService.java:75-93 | with a clock that does not run backwards, a recorded duration is non-negative and, when a setup test ran, at least that setup's own duration |
| Runner.ReplayKeepsSessionOk | src/main/java/com/restfulbooker/service/PetstoreTestService.java:14-16 | after any sequence of tests the session invariant still holds |
| Runner.ReplaySnoc | src/main/java/com/restfulbooker/service/PetstoreTestService.java:14-16 | replaying one more test is dispatching it from the session the earlier tests left |
| Runner.Run | src/main/java/com/restfulbooker/service/PetstoreTestService.java:14-16 | running tests in order returns one result per test, each exactly the result its test produces from the session the earlier tests left, and labelled with its test, and leaves the session that replaying them gives, which satisfies the invariant |
| Text.FromNat | src/main/java/com/restfulbooker/service/PetstoreTestService.java:58 | the decimal rendering of an id is a non-empty string of digits without a leading zero |
| Text.FromInt | src/main/java/com/restfulbooker/service/PetstoreTestService.java:266 | the decimal rendering of a possibly negative number is non-empty, starts with a minus sign exactly when the number is negative, and is otherwise all digits; reading the digits back gives the magnitude of the value rendered |
| Text.FromIntInjective | src/main/java/com/restfulbooker/service/PetstoreTestService.java:266 | two integers render to the same text exactly when they are equal, so a message names the one code or id it embeds |
| Text.FromNatInjective | src/main/java/com/restfulbooker/service/PetstoreTestService.java:450 | two numbers render to the same digits exactly when they are equal |

## Left out

- HTTP transport, the base URL, headers, query parameters and JSON request bodies. These belong to a foreign library and the network. Each call becomes an `Outcome` input, and `Request` keeps only the id, name, status filter, api key or credentials that vary.
- Response parsing (`response.path(...)`, `jsonPath().getList("$").size()`). The extracted value, or the exception reading it threw, is a `Parsed` input.
- Exceptions from anywhere except the call itself and the body parsing. For example, reading the body after the status code was recorded is not modelled, because it is library behaviour. The exception message is an opaque string; Java prints a missing message as "null".
- PetstoreTestController.java. It only routes one URL to each test and has no logic.
- Races between concurrent invocations on the shared session fields. The service uses no locking, and concurrency is not what the code is about.
- PetTests.MissingPetId: does not model Java `long` wrap-around in `Long.MAX_VALUE - currentTimeMillis()`; clock readings are unbounded naturals and ids unbounded integers.
- Exact wall-clock timing. Each clock reading is an input. A duration is the last reading minus the first, because a later reading in the exception handler overwrites an earlier one.
- The `TestResult` class is not part of this model. Its default field values are unknown, so a field the code never sets is `None`.
- Idempotence of classification needs no lemma. Every step is a function of its inputs, so equal outcomes give equal verdicts and messages.

=== FILE: model.dfy ===
/** The vocabulary shared by every smoke test of the pet-store service: the
    session the tests carry from one run to the next, the outcome of one HTTP
    call, the verdict record a test returns, and the classification policy
    that every test applies to its call. */
module Model {

  datatype Option<T> = None | Some(value: T)

  /** The three verdicts a test can reach. */
  datatype Verdict = Passed | Failed | Error

  /** What a test hands back. A field the test never set is `None`. */
  datatype TestResult = TestResult(
    testName: string,
    status: Verdict,
    statusCode: Option<int>,
    duration: Option<int>,
    message: string,
    responseBody: Option<string>)

  /** What one HTTP call produced: a completed response, or an exception
      (transport failure, malformed response) carrying its message. */
  datatype Outcome = Response(code: int, body: string) | Thrown(reason: string)

  /** What reading one value out of a response body produced. */
  datatype Parsed<T> = Parsed(value: T) | Unparsable(reason: string)

  /** The clock readings that bracket a test: the one taken when it starts and
      the last one taken before it returns. */
  datatype Window = Window(start: nat, stop: nat)

  /** The inputs of a creating test (add pet, place order, create user): its
      window, the clock reading it derives the new id or name from, and the
      outcome of its one call. */
  datatype CreateInput = CreateInput(window: Window, stamp: nat, outcome: Outcome)

  /** The HTTP calls a test can issue against the pet-store API. */
  datatype Request =
    | PostPet(petId: int)
    | FetchPet(petId: int)
    | PutPet(petId: int)
    | QueryPets(petStatus: string)
    | RemovePet(petId: int, apiKey: string)
    | PostOrder(orderId: int)
    | FetchOrder(orderId: int)
    | FetchInventory
    | RemoveOrder(orderId: int)
    | PostUser(username: string)
    | FetchUser(username: string)
    | PutUser(username: string)
    | RemoveUser(username: string)
    | Login(username: string, password: string)

  /** The state the service keeps between test runs. */
  datatype Session = Session(petId: Option<nat>, orderId: Option<nat>, username: string)

  /** One test run: the session after it, its verdict record, and the calls it
      issued, in order. */
  datatype Step = Step(session: Session, result: TestResult, requests: seq<Request>)

  /** The only success code any test but pet-not-found accepts. */
  const OK: int := 200
  /** The code pet-not-found expects. */
  const NotFound: int := 404
  /** Generated usernames are this prefix followed by a clock reading. */
  const UserPrefix: string := "testuser"

  /** The call completed with exactly the `expected` code. */
  predicate Succeeds(o: Outcome, expected: int) {
    o.Response? && o.code == expected
  }

  /** The classification policy, stated once for all tests: a call that threw
      is an ERROR; a completed call is FAILED unless it returned the expected
      code; with the expected code it is PASSED, unless reading the evidence
      out of the body threw, which makes it an ERROR. */
  function Judge(o: Outcome, expected: int, readable: bool): Verdict {
    match o
    case Thrown(_) => Error
    case Response(code, _) =>
      if code != expected then Failed
      else if readable then Passed
      else Error
  }

  /** The three verdicts split the outcomes: only the expected code with
      readable evidence passes, only another completed code fails, and
      everything else is an error. */
  lemma JudgeCases(o: Outcome, expected: int, readable: bool)
    ensures Judge(o, expected, readable) == Passed <==> Succeeds(o, expected) && readable
    ensures Judge(o, expected, readable) == Failed <==> o.Response? && o.code != expected
    ensures Judge(o, expected, readable) == Error <==> o.Thrown? || (Succeeds(o, expected) && !readable)
  {
  }

  /** A test that depends on a setup test reaches its own verdict only when
      the setup PASSED; otherwise it is an ERROR. */
  function AfterSetup(setup: Verdict, main: Verdict): Verdict {
    if setup == Passed then main else Error
  }

  /** The result reports the exception with the given message. */
  predicate ReportsException(r: TestResult, reason: string) {
    r.status == Error && r.message == "Exception: " + reason
  }

  function Elapsed(w: Window): int {
    w.stop - w.start
  }

  /** The result of a test whose call completed. */
  function Completed(name: string, w: Window, status: Verdict, code: int, message: string, body: Option<string>): TestResult {
    TestResult(name, status, Some(code), Some(Elapsed(w)), message, body)
  }

  /** The result the catch-all handler builds; `code` and `body` are whatever
      had already been recorded before the exception. */
  function Caught(name: string, w: Window, reason: string, code: Option<int>, body: Option<string>): TestResult {
    TestResult(name, Error, code, Some(Elapsed(w)), "Exception: " + reason, body)
  }

  /** The result of a test whose setup did not pass. */
  function Aborted(name: string, message: string, duration: Option<int>): TestResult {
    TestResult(name, Error, None, duration, message, None)
  }

  /** The result carries the status code the call returned, and no code when
      the call threw before a response arrived. */
  predicate RecordsCode(r: TestResult, o: Outcome) {
    r.statusCode == (if o.Response? then Some(o.code) else None)
  }

  /** The result carries the status code and the body the call returned, and
      neither when the call threw. */
  predicate Records(r: TestResult, o: Outcome) {
    && RecordsCode(r, o)
    && r.responseBody == (if o.Response? then Some(o.body) else None)
  }

  /** The result every completed test records, whatever its verdict. */
  predicate Measured(r: TestResult, w: Window) {
    r.duration == Some(Elapsed(w))
  }
}

=== FILE: pet_tests.dfy ===
/** The pet family of smoke tests: add, get, update, find by status, delete,
    and the not-found check. Each test is a step from a session, its clock
    readings and the outcomes of its calls to a new session and a verdict. */
module PetTests {
  import opened Model
  import opened Text

  /** The labels the tests put on their results. */
  const AddPetName: string := "Add New Pet"
  const GetPetName: string := "Get Pet by ID"
  const UpdatePetName: string := "Update Pet"
  const FindPetsName: string := "Find Pets by Status"
  const DeletePetName: string := "Delete Pet"
  const PetNotFoundName: string := "Pet Not Found (404)"

  /** Java's `Long.MAX_VALUE`; pet-not-found subtracts the clock from it. */
  const LongMax: int := 0x7FFF_FFFF_FFFF_FFFF
  /** The API key the delete call sends. */
  const ApiKey: string := "special-key"

  /** Add pet: the clock reading becomes the pet id before the call is made,
      so the session holds it whatever the call does. */
  function AddPet(s: Session, input: CreateInput): (step: Step)
    ensures step.session == s.(petId := Some(input.stamp))
    ensures step.requests == [PostPet(input.stamp)]
    ensures Records(step.result, input.outcome)
    ensures step.result.testName == AddPetName
    ensures step.result.status == Judge(input.outcome, OK, true)
    ensures Measured(step.result, input.window)
    ensures input.outcome.Thrown? ==> ReportsException(step.result, input.outcome.reason)
    ensures input.outcome.Response? ==> step.result.statusCode == Some(input.outcome.code)
  {
    var result := (
      match input.outcome
      case Thrown(reason) => Caught(AddPetName, input.window, reason, None, None)
      case Response(code, body) =>
        if code == OK then
          Completed(AddPetName, input.window, Passed, code, "Pet '" + "Fluffy" + "' created successfully with ID: " + FromNat(input.stamp), Some(body))
        else
          Completed(AddPetName, input.window, Failed, code, "Failed to create pet. Status: " + FromInt(code), Some(body)));
    Step(s.(petId := Some(input.stamp)), result, [PostPet(input.stamp)])
  }

  /** A passing add-pet names the pet and reports the id it created. */
  lemma AddPetReportsPet(s: Session, input: CreateInput)
    requires Succeeds(input.outcome, OK)
    ensures AddPet(s, input).result.status == Passed
    ensures Contains(AddPet(s, input).result.message, "Fluffy")
    ensures Contains(AddPet(s, input).result.message, FromNat(input.stamp))
  {
    var id := FromNat(input.stamp);
    var tail := "' created successfully with ID: " + id;
    assert "Pet '" + "Fluffy" + "' created successfully with ID: " + id == "Pet '" + "Fluffy" + tail;
    ContainsInfix("Pet '", "Fluffy", tail);
    ContainsSuffix("Pet '" + "Fluffy" + "' created successfully with ID: ", id);
  }

  /** The fetch half of get-pet, for a session that holds a pet id. */
  function FetchPetStep(s: Session, window: Window, fetch: Outcome, petName: Parsed<string>, before: seq<Request>): (step: Step)
    requires s.petId.Some?
    ensures step.session == s
    ensures step.requests == before + [FetchPet(s.petId.value)]
    ensures Records(step.result, fetch)
    ensures step.result.testName == GetPetName
    ensures step.result.status == Judge(fetch, OK, petName.Parsed?)
    ensures Measured(step.result, window)
    ensures fetch.Thrown? ==> ReportsException(step.result, fetch.reason)
    ensures Succeeds(fetch, OK) && petName.Unparsable? ==>
      && ReportsException(step.result, petName.reason)
      && step.result.statusCode == Some(OK)
  {
    var result := (
      match fetch
      case Thrown(reason) => Caught(GetPetName, window, reason, None, None)
      case Response(code, body) =>
        if code != OK then Completed(GetPetName, window, Failed, code, "Failed to get pet", Some(body))
        else
          match petName
          case Unparsable(reason) => Caught(GetPetName, window, reason, Some(code), Some(body))
          case Parsed(pet) => Completed(GetPetName, window, Passed, code, "Successfully retrieved pet: " + pet, Some(body)));
    Step(s, result, before + [FetchPet(s.petId.value)])
  }

  /** Get pet: with no pet id in the session, add-pet runs first and a setup
      that does not pass ends the test as an ERROR before any fetch; with an
      id, the fetch uses it and no setup runs. */
  function GetPet(s: Session, window: Window, setup: CreateInput, fetch: Outcome, petName: Parsed<string>): (step: Step)
    ensures s.petId.Some? ==>
      && step.session == s
      && step.requests == [FetchPet(s.petId.value)]
      && step.result.status == Judge(fetch, OK, petName.Parsed?)
    ensures s.petId.None? ==>
      && step.session == s.(petId := Some(setup.stamp))
      && step.result.status == AfterSetup(Judge(setup.outcome, OK, true), Judge(fetch, OK, petName.Parsed?))
    ensures s.petId.None? && !Succeeds(setup.outcome, OK) ==>
      && step.requests == [PostPet(setup.stamp)]
      && step.result == Aborted(GetPetName, "Failed to create pet for get test", None)
    ensures s.petId.None? && Succeeds(setup.outcome, OK) ==>
      step.requests == [PostPet(setup.stamp), FetchPet(setup.stamp)]
    ensures (s.petId.Some? || Succeeds(setup.outcome, OK)) ==> Measured(step.result, window)
    ensures (s.petId.Some? || Succeeds(setup.outcome, OK)) && fetch.Thrown? ==>
      ReportsException(step.result, fetch.reason)
    ensures (s.petId.Some? || Succeeds(setup.outcome, OK)) && Succeeds(fetch, OK) && petName.Unparsable? ==>
      && ReportsException(step.result, petName.reason)
      && step.result.statusCode == Some(OK)
    ensures (s.petId.Some? || Succeeds(setup.outcome, OK)) ==> Records(step.result, fetch)
    ensures step.result.testName == GetPetName
  {
    if s.petId.None? then
      var made := AddPet(s, setup);
      if made.result.status != Passed then
        Step(made.session, Aborted(GetPetName, "Failed to create pet for get test", None), made.requests)
      else
        FetchPetStep(made.session, window, fetch, petName, made.requests)
    else
      FetchPetStep(s, window, fetch, petName, [])
  }

  /** Update pet: add-pet always runs first, whatever the session holds, and
      the update names the pet it just created. */
  function UpdatePet(s: Session, window: Window, setup: CreateInput, update: Outcome): (step: Step)
    ensures step.session == s.(petId := Some(setup.stamp))
    ensures step.result.status == AfterSetup(Judge(setup.outcome, OK, true), Judge(update, OK, true))
    ensures !Succeeds(setup.outcome, OK) ==>
      && step.requests == [PostPet(setup.stamp)]
      && step.result == Aborted(UpdatePetName, "Failed to create pet for update test", None)
    ensures Succeeds(setup.outcome, OK) ==>
      && step.requests == [PostPet(setup.stamp), PutPet(setup.stamp)]
      && Measured(step.result, window)
    ensures Succeeds(setup.outcome, OK) && update.Thrown? ==> ReportsException(step.result, update.reason)
    ensures Succeeds(setup.outcome, OK) ==> Records(step.result, update)
    ensures step.result.testName == UpdatePetName
  {
    var made := AddPet(s, setup);
    if made.result.status != Passed then
      Step(made.session, Aborted(UpdatePetName, "Failed to create pet for update test", None), made.requests)
    else
      var result := (
        match update
        case Thrown(reason) => Caught(UpdatePetName, window, reason, None, None)
        case Response(code, body) =>
          if code == OK then
            Completed(UpdatePetName, window, Passed, code, "Pet updated successfully to 'Fluffy Updated' with status 'sold'", Some(body))
          else
            Completed(UpdatePetName, window, Failed, code, "Failed to update pet", Some(body)));
      Step(made.session, result, made.requests + [PutPet(made.session.petId.value)])
  }

  /** Find pets by status: one query for "available" pets, no setup and no
      change to the session; a pass reports the number of pets found. */
  function FindPetsByStatus(s: Session, window: Window, query: Outcome, count: Parsed<nat>): (step: Step)
    ensures step.session == s
    ensures step.requests == [QueryPets("available")]
    ensures step.result.status == Judge(query, OK, count.Parsed?)
    ensures Measured(step.result, window)
    ensures step.result.status != Passed ==> step.result.responseBody == None
    ensures query.Thrown? ==> ReportsException(step.result, query.reason)
    ensures Succeeds(query, OK) && count.Unparsable? ==>
      && ReportsException(step.result, count.reason)
      && step.result.statusCode == Some(OK)
    ensures RecordsCode(step.result, query)
    ensures step.result.testName == FindPetsName
  {
    var result := (
      match query
      case Thrown(reason) => Caught(FindPetsName, window, reason, None, None)
      case Response(code, _) =>
        if code != OK then Completed(FindPetsName, window, Failed, code, "Failed to find pets by status", None)
        else
          match count
          case Unparsable(reason) => Caught(FindPetsName, window, reason, Some(code), None)
          case Parsed(n) =>
            Completed(FindPetsName, window, Passed, code, "Found " + FromNat(n) + " pets with status 'available'",
                      Some("Available pets count: " + FromNat(n))));
    Step(s, result, [QueryPets("available")])
  }

  /** Delete pet: add-pet always runs first; the delete targets the pet just
      created, and only a 200 clears the session's pet id. */
  function DeletePet(s: Session, window: Window, setup: CreateInput, del: Outcome): (step: Step)
    ensures step.session.orderId == s.orderId && step.session.username == s.username
    ensures step.result.status == AfterSetup(Judge(setup.outcome, OK, true), Judge(del, OK, true))
    ensures step.session.petId == None <==> Succeeds(setup.outcome, OK) && Succeeds(del, OK)
    ensures step.session.petId != None ==> step.session.petId == Some(setup.stamp)
    ensures !Succeeds(setup.outcome, OK) ==>
      && step.requests == [PostPet(setup.stamp)]
      && step.result == Aborted(DeletePetName, "Failed to create pet for delete test", None)
    ensures Succeeds(setup.outcome, OK) ==>
      && step.requests == [PostPet(setup.stamp), RemovePet(setup.stamp, ApiKey)]
      && Measured(step.result, window)
    ensures Succeeds(setup.outcome, OK) && del.Thrown? ==> ReportsException(step.result, del.reason)
    ensures Succeeds(setup.outcome, OK) ==> Records(step.result, del)
    ensures step.result.testName == DeletePetName
  {
    var made := AddPet(s, setup);
    if made.result.status != Passed then
      Step(made.session, Aborted(DeletePetName, "Failed to create pet for delete test", None), made.requests)
    else
      var doomed := made.session.petId.value;
      var requests := made.requests + [RemovePet(doomed, ApiKey)];
      match del
      case Thrown(reason) => Step(made.session, Caught(DeletePetName, window, reason, None, None), requests)
      case Response(code, body) =>
        if code == OK then
          Step(made.session.(petId := None),
               Completed(DeletePetName, window, Passed, code, "Pet " + FromNat(doomed) + " deleted successfully", Some(body)),
               requests)
        else
          Step(made.session, Completed(DeletePetName, window, Failed, code, "Failed to delete pet", Some(body)), requests)
  }

  /** A passing delete-pet names the pet it deleted: the one add-pet just created. */
  lemma DeletePetReportsId(s: Session, window: Window, setup: CreateInput, del: Outcome)
    requires Succeeds(setup.outcome, OK) && Succeeds(del, OK)
    ensures DeletePet(s, window, setup, del).result.status == Passed
    ensures Contains(DeletePet(s, window, setup, del).result.message, FromNat(setup.stamp))
  {
    ContainsInfix("Pet ", FromNat(setup.stamp), " deleted successfully");
  }

  /** The id pet-not-found asks for: for any clock reading a Java `long` can
      hold, a non-negative `long`. */
  function MissingPetId(stamp: nat): (id: int)
    ensures stamp <= LongMax ==> 0 <= id <= LongMax
  {
    LongMax - stamp
  }

  /** Pet-not-found never asks for the same id twice: a later clock reading
      asks for a smaller id. */
  lemma MissingPetIdsDecrease(earlier: nat, later: nat)
    requires earlier < later
    ensures MissingPetId(later) < MissingPetId(earlier)
  {
  }

  /** Pet not found: only a 404 passes; every other completed response,
      200 included, is a FAILED verdict that names the code it got. */
  function PetNotFound(s: Session, window: Window, stamp: nat, fetch: Outcome): (step: Step)
    ensures step.session == s
    ensures step.requests == [FetchPet(MissingPetId(stamp))]
    ensures step.result.status == Judge(fetch, NotFound, true)
    ensures fetch.Response? ==> step.result.status != Error
    ensures fetch.Thrown? ==> ReportsException(step.result, fetch.reason)
    ensures Measured(step.result, window)
    ensures Records(step.result, fetch)
    ensures step.result.testName == PetNotFoundName
  {
    var id := MissingPetId(stamp);
    var result := (
      match fetch
      case Thrown(reason) => Caught(PetNotFoundName, window, reason, None, None)
      case Response(code, body) =>
        if code == NotFound then
          Completed(PetNotFoundName, window, Passed, code, "API correctly returned 404 for non-existent pet ID: " + FromInt(id), Some(body))
        else
          Completed(PetNotFoundName, window, Failed, code,
                    "Expected 404 for non-existent pet, got " + FromInt(code) + " for ID: " + FromInt(id), Some(body)));
    Step(s, result, [FetchPet(id)])
  }

  /** A failing add-pet reports the status code it got. */
  lemma AddPetFailureNamesCode(s: Session, input: CreateInput)
    requires input.outcome.Response? && input.outcome.code != OK
    ensures AddPet(s, input).result.status == Failed
    ensures Contains(AddPet(s, input).result.message, FromInt(input.outcome.code))
  {
    ContainsSuffix("Failed to create pet. Status: ", FromInt(input.outcome.code));
  }

  /** A passing find-by-status reports how many pets it found, in the message
      and in the body summary. */
  lemma FindPetsReportsCount(s: Session, window: Window, query: Outcome, count: Parsed<nat>)
    requires Succeeds(query, OK) && count.Parsed?
    ensures FindPetsByStatus(s, window, query, count).result.status == Passed
    ensures Contains(FindPetsByStatus(s, window, query, count).result.message, FromNat(count.value))
    ensures FindPetsByStatus(s, window, query, count).result.responseBody == Some("Available pets count: " + FromNat(count.value))
  {
    ContainsInfix("Found ", FromNat(count.value), " pets with status 'available'");
  }

  /** Pet-not-found reports the id it asked for whatever the code, and the
      unexpected code when it fails. */
  lemma PetNotFoundReportsId(s: Session, window: Window, stamp: nat, fetch: Outcome)
    requires fetch.Response?
    ensures Contains(PetNotFound(s, window, stamp, fetch).result.message, FromInt(MissingPetId(stamp)))
    ensures fetch.code != NotFound ==> Contains(PetNotFound(s, window, stamp, fetch).result.message, FromInt(fetch.code))
  {
    var id := FromInt(MissingPetId(stamp));
    if fetch.code == NotFound {
      ContainsSuffix("API correctly returned 404 for non-existent pet ID: ", id);
    } else {
      var code := FromInt(fetch.code);
      ContainsSuffix("Expected 404 for non-existent pet, got " + code + " for ID: ", id);
      ContainsInfix("Expected 404 for non-existent pet, got ", code, " for ID: " + id);
      assert "Expected 404 for non-existent pet, got " + code + " for ID: " + id
          == "Expected 404 for non-existent pet, got " + code + (" for ID: " + id);
    }
  }

  /** After a passing delete-pet the session holds no pet, so the next
      get-pet runs add-pet again instead of reusing the deleted id. */
  lemma DeletedPetIsRecreated(s: Session, w1: Window, setup1: CreateInput, del: Outcome,
                              w2: Window, setup2: CreateInput, fetch: Outcome, petName: Parsed<string>)
    requires DeletePet(s, w1, setup1, del).result.status == Passed
    ensures DeletePet(s, w1, setup1, del).session.petId == None
    ensures GetPet(DeletePet(s, w1, setup1, del).session, w2, setup2, fetch, petName).requests[0] == PostPet(setup2.stamp)
  {
  }

  /** A get-pet whose setup failed still leaves the new id in the session, so
      the next get-pet skips the setup and fetches that id. */
  lemma FailedSetupLeavesPetId(s: Session, w1: Window, setup1: CreateInput, fetch1: Outcome, name1: Parsed<string>,
                               w2: Window, setup2: CreateInput, fetch2: Outcome, name2: Parsed<string>)
    requires s.petId.None? && !Succeeds(setup1.outcome, OK)
    ensures GetPet(s, w1, setup1, fetch1, name1).result.status == Error
    ensures GetPet(GetPet(s, w1, setup1, fetch1, name1).session, w2, setup2, fetch2, name2).requests == [FetchPet(setup1.stamp)]
  {
  }

  /** A passing get-pet reports the pet name read from the body. */
  lemma GetPetReportsName(s: Session, window: Window, setup: CreateInput, fetch: Outcome, petName: Parsed<string>)
    requires s.petId.Some? || Succeeds(setup.outcome, OK)
    requires Succeeds(fetch, OK) && petName.Parsed?
    ensures GetPet(s, window, setup, fetch, petName).result.status == Passed
    ensures Contains(GetPet(s, window, setup, fetch, petName).result.message, petName.value)
  {
    ContainsSuffix("Successfully retrieved pet: ", petName.value);
  }
}

=== FILE: runner.dfy ===
/** The service as a whole: one entry per test, the session it carries from
    one run to the next over the life of the process, and the invariant that
    session keeps. */
module Runner {
  import opened Model
  import opened Text
  import PetTests
  import StoreTests
  import UserTests

  /** One triggered test, with the clock readings and call outcomes it will see. */
  datatype Invocation =
    | AddPetTest(input: CreateInput)
    | GetPetTest(window: Window, setup: CreateInput, call: Outcome, petName: Parsed<string>)
    | UpdatePetTest(window: Window, setup: CreateInput, call: Outcome)
    | FindPetsTest(window: Window, call: Outcome, count: Parsed<nat>)
    | DeletePetTest(window: Window, setup: CreateInput, call: Outcome)
    | PetNotFoundTest(window: Window, stamp: nat, call: Outcome)
    | PlaceOrderTest(input: CreateInput)
    | GetOrderTest(window: Window, setup: CreateInput, call: Outcome)
    | InventoryTest(window: Window, call: Outcome)
    | DeleteOrderTest(window: Window, setup: CreateInput, call: Outcome)
    | CreateUserTest(input: CreateInput)
    | GetUserTest(window: Window, setup: CreateInput, call: Outcome, firstName: Parsed<string>)
    | UpdateUserTest(window: Window, setup: CreateInput, call: Outcome)
    | DeleteUserTest(window: Window, setup: CreateInput, call: Outcome, restamp: nat)
    | LoginTest(window: Window, call: Outcome)

  /** The label each test puts on its result. */
  function TestName(inv: Invocation): string {
    match inv
    case AddPetTest(_) => PetTests.AddPetName
    case GetPetTest(_, _, _, _) => PetTests.GetPetName
    case UpdatePetTest(_, _, _) => PetTests.UpdatePetName
    case FindPetsTest(_, _, _) => PetTests.FindPetsName
    case DeletePetTest(_, _, _) => PetTests.DeletePetName
    case PetNotFoundTest(_, _, _) => PetTests.PetNotFoundName
    case PlaceOrderTest(_) => StoreTests.PlaceOrderName
    case GetOrderTest(_, _, _) => StoreTests.GetOrderName
    case InventoryTest(_, _) => StoreTests.InventoryName
    case DeleteOrderTest(_, _, _) => StoreTests.DeleteOrderName
    case CreateUserTest(_) => UserTests.CreateUserName
    case GetUserTest(_, _, _, _) => UserTests.GetUserName
    case UpdateUserTest(_, _, _) => UserTests.UpdateUserName
    case DeleteUserTest(_, _, _, _) => UserTests.DeleteUserName
    case LoginTest(_, _) => UserTests.LoginName
  }

  /** The readings that bracket the whole test. */
  function OuterWindow(inv: Invocation): Window {
    match inv
    case AddPetTest(input) => input.window
    case PlaceOrderTest(input) => input.window
    case CreateUserTest(input) => input.window
    case _ => inv.window
  }

  /** The setup test an invocation runs from session `s`: get-pet and
      get-order run one only when the session holds no id for them. */
  function SetupRun(s: Session, inv: Invocation): Option<CreateInput> {
    match inv
    case GetPetTest(_, setup, _, _) => if s.petId.None? then Some(setup) else None
    case UpdatePetTest(_, setup, _) => Some(setup)
    case DeletePetTest(_, setup, _) => Some(setup)
    case GetOrderTest(_, setup, _) => if s.orderId.None? then Some(setup) else None
    case DeleteOrderTest(_, setup, _) => Some(setup)
    case GetUserTest(_, setup, _, _) => Some(setup)
    case UpdateUserTest(_, setup, _) => Some(setup)
    case DeleteUserTest(_, setup, _, _) => Some(setup)
    case _ => None
  }

  predicate Within(inner: Window, outer: Window) {
    outer.start <= inner.start <= inner.stop <= outer.stop
  }

  /** The clock never runs backwards during the test: its readings are in
      order and a setup test that runs does so inside the dependent test's
      window. */
  predicate Ordered(s: Session, inv: Invocation) {
    && OuterWindow(inv).start <= OuterWindow(inv).stop
    && (SetupRun(s, inv).Some? ==> Within(SetupRun(s, inv).value.window, OuterWindow(inv)))
  }

  /** What every reachable session satisfies: an order id, when there is one,
      lies in 1..10, and the username is a generated one. */
  predicate SessionOk(s: Session) {
    && (s.orderId.Some? ==> 1 <= s.orderId.value <= 10)
    && UserTests.IsGeneratedName(s.username)
  }

  /** The session when the service starts: no pet, no order, and a username
      generated from the clock reading at construction. */
  function Initial(clock: nat): (s: Session)
    ensures SessionOk(s)
    ensures s.petId.None? && s.orderId.None?
  {
    Session(None, None, UserTests.GeneratedName(clock))
  }

  /** Runs one triggered test. */
  function Dispatch(s: Session, inv: Invocation): Step
  {
    match inv
    case AddPetTest(input) => PetTests.AddPet(s, input)
    case GetPetTest(w, setup, call, petName) => PetTests.GetPet(s, w, setup, call, petName)
    case UpdatePetTest(w, setup, call) => PetTests.UpdatePet(s, w, setup, call)
    case FindPetsTest(w, call, count) => PetTests.FindPetsByStatus(s, w, call, count)
    case DeletePetTest(w, setup, call) => PetTests.DeletePet(s, w, setup, call)
    case PetNotFoundTest(w, stamp, call) => PetTests.PetNotFound(s, w, stamp, call)
    case PlaceOrderTest(input) => StoreTests.PlaceOrder(s, input)
    case GetOrderTest(w, setup, call) => StoreTests.GetOrder(s, w, setup, call)
    case InventoryTest(w, call) => StoreTests.GetInventory(s, w, call)
    case DeleteOrderTest(w, setup, call) => StoreTests.DeleteOrder(s, w, setup, call)
    case CreateUserTest(input) => UserTests.CreateUser(s, input)
    case GetUserTest(w, setup, call, firstName) => UserTests.GetUser(s, w, setup, call, firstName)
    case UpdateUserTest(w, setup, call) => UserTests.UpdateUser(s, w, setup, call)
    case DeleteUserTest(w, setup, call, restamp) => UserTests.DeleteUser(s, w, setup, call, restamp)
    case LoginTest(w, call) => UserTests.UserLogin(s, w, call)
  }

  /** Every result carries the label of the test that produced it. */
  lemma DispatchLabelsResult(s: Session, inv: Invocation)
    ensures Dispatch(s, inv).result.testName == TestName(inv)
  {
  }

  /** Every test issues one call, or two exactly when it ran a setup test
      first and that setup passed. */
  lemma DispatchCallCount(s: Session, inv: Invocation)
    ensures 1 <= |Dispatch(s, inv).requests| <= 2
    ensures |Dispatch(s, inv).requests| == 2 <==>
      SetupRun(s, inv).Some? && Succeeds(SetupRun(s, inv).value.outcome, OK)
  {
  }

  /** Whenever a test records a duration, it is the time from its own first
      clock reading to its last, setup included. */
  lemma DispatchDuration(s: Session, inv: Invocation)
    ensures Dispatch(s, inv).result.duration.Some? ==>
      Dispatch(s, inv).result.duration == Some(Elapsed(OuterWindow(inv)))
  {
  }

  /** Every test keeps the session invariant. */
  lemma DispatchKeepsSessionOk(s: Session, inv: Invocation)
    requires SessionOk(s)
    ensures SessionOk(Dispatch(s, inv).session)
  {
  }

  /** With a clock that does not run backwards, a recorded duration is never
      negative and covers the setup test's own duration. */
  lemma DurationCoversSetup(s: Session, inv: Invocation)
    requires Ordered(s, inv)
    ensures Dispatch(s, inv).result.duration.Some? ==> Dispatch(s, inv).result.duration.value >= 0
    ensures Dispatch(s, inv).result.duration.Some? && SetupRun(s, inv).Some? ==>
      Dispatch(s, inv).result.duration.value >= Elapsed(SetupRun(s, inv).value.window)
  {
    DispatchDuration(s, inv);
  }

  /** The session after a sequence of triggered tests, one after another. */
  function Replay(s: Session, invs: seq<Invocation>): Session
    decreases |invs|
  {
    if |invs| == 0 then s else Replay(Dispatch(s, invs[0]).session, invs[1..])
  }

  /** However many tests run, in whatever order, the session invariant holds
      after each of them. */
  lemma {:induction false} ReplayKeepsSessionOk(s: Session, invs: seq<Invocation>)
    requires SessionOk(s)
    ensures SessionOk(Replay(s, invs))
    decreases |invs|
  {
    if |invs| > 0 {
      DispatchKeepsSessionOk(s, invs[0]);
      ReplayKeepsSessionOk(Dispatch(s, invs[0]).session, invs[1..]);
    }
  }

  /** Replaying one more test is dispatching it from where the replay left off. */
  lemma {:induction false} ReplaySnoc(s: Session, invs: seq<Invocation>, inv: Invocation)
    ensures Replay(s, invs + [inv]) == Dispatch(Replay(s, invs), inv).session
    decreases |invs|
  {
    if |invs| == 0 {
      assert invs + [inv] == [inv];
      assert [inv][1..] == [];
    } else {
      assert (invs + [inv])[1..] == invs[1..] + [inv];
      ReplaySnoc(Dispatch(s, invs[0]).session, invs[1..], inv);
    }
  }

  /** One more test on top of a replayed prefix keeps the invariant and
      leaves the session that replaying one more gives. */
  lemma RunStep(s: Session, invs: seq<Invocation>, i: nat)
    requires i < |invs|
    requires SessionOk(Replay(s, invs[..i]))
    ensures SessionOk(Dispatch(Replay(s, invs[..i]), invs[i]).session)
    ensures Dispatch(Replay(s, invs[..i]), invs[i]).session == Replay(s, invs[..i + 1])
  {
    DispatchKeepsSessionOk(Replay(s, invs[..i]), invs[i]);
    ReplaySnoc(s, invs[..i], invs[i]);
    assert invs[..i + 1] == invs[..i] + [invs[i]];
  }

  /** Results that are the dispatched results of a replay carry the labels of
      their tests. */
  lemma ReplayLabelsResults(s: Session, invs: seq<Invocation>, results: seq<TestResult>)
    requires |results| == |invs|
    requires forall i :: 0 <= i < |invs| ==> results[i] == Dispatch(Replay(s, invs[..i]), invs[i]).result
    ensures forall i :: 0 <= i < |invs| ==> results[i].testName == TestName(invs[i])
  {
    forall i | 0 <= i < |invs|
      ensures results[i].testName == TestName(invs[i])
    {
      DispatchLabelsResult(Replay(s, invs[..i]), invs[i]);
    }
  }

  /** Runs the tests in order, collecting their results. */
  method Run(s: Session, invs: seq<Invocation>) returns (last: Session, results: seq<TestResult>)
    requires SessionOk(s)
    ensures SessionOk(last)
    ensures last == Replay(s, invs)
    ensures |results| == |invs|
    ensures forall i :: 0 <= i < |invs| ==> results[i].testName == TestName(invs[i])
    ensures forall i :: 0 <= i < |invs| ==> results[i] == Dispatch(Replay(s, invs[..i]), invs[i]).result
  {
    last := s;
    results := [];
    var i := 0;
    while i < |invs|
      invariant 0 <= i <= |invs|
      invariant last == Replay(s, invs[..i])
      invariant SessionOk(last)
      invariant |results| == i
      invariant forall k :: 0 <= k < i ==> results[k] == Dispatch(Replay(s, invs[..k]), invs[k]).result
    {
      RunStep(s, invs, i);
      var step := Dispatch(last, invs[i]);
      last := step.session;
      results := results + [step.result];
      i := i + 1;
    }
    assert invs[..i] == invs;
    ReplayLabelsResults(s, invs, results);
  }
}

=== FILE: store_tests.dfy ===
/** The store family of smoke tests: place an order, get it back, read the
    inventory, and delete an order. */
module StoreTests {
  import opened Model
  import opened Text

  /** The labels the tests put on their results. */
  const PlaceOrderName: string := "Place Order"
  const GetOrderName: string := "Get Order by ID"
  const InventoryName: string := "Get Store Inventory"
  const DeleteOrderName: string := "Delete Order"
  /** The fixed body a passing get-inventory records in place of the response. */
  const InventorySummary: string := "Inventory data retrieved"

  /** The order id place-order derives from a clock reading: the reading
      modulo 10, plus one. */
  function OrderIdFrom(stamp: nat): (id: nat)
    ensures 1 <= id <= 10
  {
    stamp % 10 + 1
  }

  /** Order ids are not unique: readings ten milliseconds apart give the same id. */
  lemma {:induction false} OrderIdsRepeat(stamp: nat, k: nat)
    ensures OrderIdFrom(stamp + 10 * k) == OrderIdFrom(stamp)
    decreases k
  {
    if k > 0 {
      OrderIdsRepeat(stamp, k - 1);
      assert stamp + 10 * k == (stamp + 10 * (k - 1)) + 10;
    }
  }

  /** Place order: the derived id goes into the session before the call is
      made, so the session holds it whatever the call does. */
  function PlaceOrder(s: Session, input: CreateInput): (step: Step)
    ensures step.session.petId == s.petId && step.session.username == s.username
    ensures step.session.orderId.Some? && 1 <= step.session.orderId.value <= 10
    ensures step.session.orderId == Some(OrderIdFrom(input.stamp))
    ensures step.requests == [PostOrder(OrderIdFrom(input.stamp))]
    ensures Records(step.result, input.outcome)
    ensures step.result.testName == PlaceOrderName
    ensures step.result.status == Judge(input.outcome, OK, true)
    ensures Measured(step.result, input.window)
    ensures input.outcome.Thrown? ==> ReportsException(step.result, input.outcome.reason)
  {
    var id := OrderIdFrom(input.stamp);
    var result := (
      match input.outcome
      case Thrown(reason) => Caught(PlaceOrderName, input.window, reason, None, None)
      case Response(code, body) =>
        if code == OK then
          Completed(PlaceOrderName, input.window, Passed, code, "Order placed successfully with ID: " + FromNat(id), Some(body))
        else
          Completed(PlaceOrderName, input.window, Failed, code, "Failed to place order", Some(body)));
    Step(s.(orderId := Some(id)), result, [PostOrder(id)])
  }

  /** A passing place-order reports the id it placed. */
  lemma PlaceOrderReportsId(s: Session, input: CreateInput)
    requires Succeeds(input.outcome, OK)
    ensures PlaceOrder(s, input).result.status == Passed
    ensures Contains(PlaceOrder(s, input).result.message, FromNat(OrderIdFrom(input.stamp)))
  {
    ContainsSuffix("Order placed successfully with ID: ", FromNat(OrderIdFrom(input.stamp)));
  }

  /** The fetch half of get-order, for a session that holds an order id. */
  function FetchOrderStep(s: Session, window: Window, fetch: Outcome, before: seq<Request>): (step: Step)
    requires s.orderId.Some?
    ensures step.session == s
    ensures step.requests == before + [FetchOrder(s.orderId.value)]
    ensures Records(step.result, fetch)
    ensures step.result.testName == GetOrderName
    ensures step.result.status == Judge(fetch, OK, true)
    ensures Measured(step.result, window)
    ensures fetch.Thrown? ==> ReportsException(step.result, fetch.reason)
  {
    var id := s.orderId.value;
    var result := (
      match fetch
      case Thrown(reason) => Caught(GetOrderName, window, reason, None, None)
      case Response(code, body) =>
        if code == OK then
          Completed(GetOrderName, window, Passed, code, "Successfully retrieved order ID: " + FromNat(id), Some(body))
        else
          Completed(GetOrderName, window, Failed, code, "Failed to get order", Some(body)));
    Step(s, result, before + [FetchOrder(id)])
  }

  /** Get order: with no order id in the session, place-order runs first and
      a setup that does not pass ends the test as an ERROR before any fetch;
      with an id, the fetch uses it and no setup runs. */
  function GetOrder(s: Session, window: Window, setup: CreateInput, fetch: Outcome): (step: Step)
    ensures s.orderId.Some? ==>
      && step.session == s
      && step.requests == [FetchOrder(s.orderId.value)]
      && step.result.status == Judge(fetch, OK, true)
    ensures s.orderId.None? ==>
      && step.session == s.(orderId := Some(OrderIdFrom(setup.stamp)))
      && step.result.status == AfterSetup(Judge(setup.outcome, OK, true), Judge(fetch, OK, true))
    ensures s.orderId.None? && !Succeeds(setup.outcome, OK) ==>
      && step.requests == [PostOrder(OrderIdFrom(setup.stamp))]
      && step.result == Aborted(GetOrderName, "Failed to place order for get test", None)
    ensures s.orderId.None? && Succeeds(setup.outcome, OK) ==>
      step.requests == [PostOrder(OrderIdFrom(setup.stamp)), FetchOrder(OrderIdFrom(setup.stamp))]
    ensures (s.orderId.Some? || Succeeds(setup.outcome, OK)) ==> Measured(step.result, window)
    ensures (s.orderId.Some? || Succeeds(setup.outcome, OK)) && fetch.Thrown? ==>
      ReportsException(step.result, fetch.reason)
    ensures (s.orderId.Some? || Succeeds(setup.outcome, OK)) ==> Records(step.result, fetch)
    ensures step.result.testName == GetOrderName
  {
    if s.orderId.None? then
      var made := PlaceOrder(s, setup);
      if made.result.status != Passed then
        Step(made.session, Aborted(GetOrderName, "Failed to place order for get test", None), made.requests)
      else
        FetchOrderStep(made.session, window, fetch, made.requests)
    else
      FetchOrderStep(s, window, fetch, [])
  }

  /** A passing get-order names the order it fetched: the one the session
      held, or the one place-order just made. */
  lemma GetOrderReportsId(s: Session, window: Window, setup: CreateInput, fetch: Outcome)
    requires s.orderId.Some? || Succeeds(setup.outcome, OK)
    requires Succeeds(fetch, OK)
    ensures GetOrder(s, window, setup, fetch).result.status == Passed
    ensures Contains(GetOrder(s, window, setup, fetch).result.message,
                     FromNat(if s.orderId.Some? then s.orderId.value else OrderIdFrom(setup.stamp)))
  {
    ContainsSuffix("Successfully retrieved order ID: ",
                   FromNat(if s.orderId.Some? then s.orderId.value else OrderIdFrom(setup.stamp)));
  }

  /** Get inventory: one unconditional fetch, no change to the session; only
      a pass records a body, and that body is a fixed summary. */
  function GetInventory(s: Session, window: Window, fetch: Outcome): (step: Step)
    ensures step.session == s
    ensures step.requests == [FetchInventory]
    ensures step.result.status == Judge(fetch, OK, true)
    ensures Measured(step.result, window)
    ensures step.result.responseBody.Some? <==> step.result.status == Passed
    ensures fetch.Thrown? ==> ReportsException(step.result, fetch.reason)
    ensures RecordsCode(step.result, fetch)
    ensures step.result.status == Passed ==> step.result.responseBody == Some(InventorySummary)
    ensures step.result.testName == InventoryName
  {
    var result := (
      match fetch
      case Thrown(reason) => Caught(InventoryName, window, reason, None, None)
      case Response(code, _) =>
        if code == OK then
          Completed(InventoryName, window, Passed, code, "Successfully retrieved store inventory", Some(InventorySummary))
        else
          Completed(InventoryName, window, Failed, code, "Failed to get inventory", None));
    Step(s, result, [FetchInventory])
  }

  /** Delete order: the session's order id is cleared and place-order always
      runs first; unlike the other dependent tests, a failed setup still
      records the elapsed time. Only a 200 leaves the order id cleared. */
  function DeleteOrder(s: Session, window: Window, setup: CreateInput, del: Outcome): (step: Step)
    ensures step.session.petId == s.petId && step.session.username == s.username
    ensures step.result.status == AfterSetup(Judge(setup.outcome, OK, true), Judge(del, OK, true))
    ensures step.session.orderId == None <==> Succeeds(setup.outcome, OK) && Succeeds(del, OK)
    ensures step.session.orderId != None ==> step.session.orderId == Some(OrderIdFrom(setup.stamp))
    ensures !Succeeds(setup.outcome, OK) ==>
      && step.requests == [PostOrder(OrderIdFrom(setup.stamp))]
      && step.result == Aborted(DeleteOrderName, "Failed to create order for delete test", Some(Elapsed(window)))
    ensures Succeeds(setup.outcome, OK) ==>
      step.requests == [PostOrder(OrderIdFrom(setup.stamp)), RemoveOrder(OrderIdFrom(setup.stamp))]
    ensures Measured(step.result, window)
    ensures Succeeds(setup.outcome, OK) && del.Thrown? ==> ReportsException(step.result, del.reason)
    ensures Succeeds(setup.outcome, OK) ==> Records(step.result, del)
    ensures step.result.testName == DeleteOrderName
  {
    var made := PlaceOrder(s.(orderId := None), setup);
    if made.result.status != Passed then
      Step(made.session, Aborted(DeleteOrderName, "Failed to create order for delete test", Some(Elapsed(window))), made.requests)
    else
      var doomed := made.session.orderId.value;
      var requests := made.requests + [RemoveOrder(doomed)];
      match del
      case Thrown(reason) => Step(made.session, Caught(DeleteOrderName, window, reason, None, None), requests)
      case Response(code, body) =>
        if code == OK then
          Step(made.session.(orderId := None),
               Completed(DeleteOrderName, window, Passed, code, "Order " + FromNat(doomed) + " deleted successfully", Some(body)),
               requests)
        else
          Step(made.session,
               Completed(DeleteOrderName, window, Failed, code, "Failed to delete order ID: " + FromNat(doomed), Some(body)),
               requests)
  }

  /** Once setup passed, delete-order's message names the order it tried to
      delete, whether the delete returned 200 or another code. */
  lemma DeleteOrderReportsId(s: Session, window: Window, setup: CreateInput, del: Outcome)
    requires Succeeds(setup.outcome, OK) && del.Response?
    ensures Contains(DeleteOrder(s, window, setup, del).result.message, FromNat(OrderIdFrom(setup.stamp)))
  {
    var id := FromNat(OrderIdFrom(setup.stamp));
    if del.code == OK {
      ContainsInfix("Order ", id, " deleted successfully");
    } else {
      ContainsSuffix("Failed to delete order ID: ", id);
    }
  }

  /** What delete-order does never depends on the order id the session held
      before: the reset discards it before anything reads it. */
  lemma DeleteOrderForgetsPriorOrder(s: Session, prior: Option<nat>, window: Window, setup: CreateInput, del: Outcome)
    ensures DeleteOrder(s, window, setup, del) == DeleteOrder(s.(orderId := prior), window, setup, del)
  {
  }

  /** After a passing delete-order the session holds no order, so the next
      get-order places a new one first. */
  lemma DeletedOrderIsReplaced(s: Session, w1: Window, setup1: CreateInput, del: Outcome,
                               w2: Window, setup2: CreateInput, fetch: Outcome)
    requires DeleteOrder(s, w1, setup1, del).result.status == Passed
    ensures DeleteOrder(s, w1, setup1, del).session.orderId == None
    ensures GetOrder(DeleteOrder(s, w1, setup1, del).session, w2, setup2, fetch).requests[0] == PostOrder(OrderIdFrom(setup2.stamp))
  {
  }
}

=== FILE: text.dfy ===
/** Decimal rendering of numbers, as Java's string concatenation does it for
    `long` and `int` values, and a substring predicate for stating what a
    verdict message mentions. */
module Text {

  predicate IsDigit(c: char) {
    '0' <= c <= '9'
  }

  predicate AllDigits(s: string) {
    forall i :: 0 <= i < |s| ==> IsDigit(s[i])
  }

  function DigitValue(c: char): (d: nat)
    requires IsDigit(c)
    ensures d < 10
  {
    c as int - '0' as int
  }

  function Digit(d: nat): (c: char)
    requires d < 10
    ensures IsDigit(c)
    ensures DigitValue(c) == d
  {
    ('0' as int + d) as char
  }

  /** The decimal digits of `n`, most significant first, without leading zeros. */
  function FromNat(n: nat): (r: string)
    ensures |r| > 0
    ensures AllDigits(r)
    ensures r[0] == '0' ==> n == 0
    decreases n
  {
    if n < 10 then [Digit(n)] else FromNat(n / 10) + [Digit(n % 10)]
  }

  /** Java's rendering of a signed integer: a minus sign before the digits of
      the magnitude when the value is negative. */
  function FromInt(i: int): (r: string)
    ensures |r| > 0
    ensures r[0] == '-' <==> i < 0
    ensures AllDigits(r[1..]) && (i >= 0 ==> AllDigits(r))
    ensures i >= 0 ==> ToNat(r) == i
    ensures i < 0 ==> ToNat(r[1..]) == -i
  {
    if i < 0 then
      ToNatFromNat(-i);
      assert ("-" + FromNat(-i))[1..] == FromNat(-i);
      "-" + FromNat(-i)
    else
      ToNatFromNat(i);
      FromNat(i)
  }

  /** Distinct integers render differently, so a message that embeds a
      rendered code or id determines it. */
  lemma FromIntInjective(a: int, b: int)
    ensures FromInt(a) == FromInt(b) <==> a == b
  {
    if FromInt(a) == FromInt(b) {
      if a < 0 {
        assert b < 0;
        assert FromInt(a)[1..] == FromNat(-a);
        assert FromInt(b)[1..] == FromNat(-b);
        FromNatInjective(-a, -b);
      } else {
        FromNatInjective(a, b);
      }
    }
  }

  /** The value a string of decimal digits denotes; the reading that undoes `FromNat`. */
  function ToNat(s: string): nat
    requires AllDigits(s)
  {
    if |s| == 0 then 0 else ToNat(s[..|s| - 1]) * 10 + DigitValue(s[|s| - 1])
  }

  lemma {:induction false} ToNatFromNat(n: nat)
    ensures ToNat(FromNat(n)) == n
    decreases n
  {
    if n >= 10 {
      var s := FromNat(n);
      assert s[..|s| - 1] == FromNat(n / 10);
      ToNatFromNat(n / 10);
    }
  }

  /** Different numbers never render to the same digits. */
  lemma FromNatInjective(a: nat, b: nat)
    ensures FromNat(a) == FromNat(b) <==> a == b
  {
    if FromNat(a) == FromNat(b) {
      ToNatFromNat(a);
      ToNatFromNat(b);
    }
  }

  /** Prefixing a fixed string keeps the rendering injective: two values give
      the same `prefix + digits` exactly when they are equal. */
  lemma PrefixedInjective(prefix: string, a: nat, b: nat)
    ensures prefix + FromNat(a) == prefix + FromNat(b) <==> a == b
  {
    if prefix + FromNat(a) == prefix + FromNat(b) {
      assert (prefix + FromNat(a))[|prefix|..] == FromNat(a);
      assert (prefix + FromNat(b))[|prefix|..] == FromNat(b);
      FromNatInjective(a, b);
    }
  }

  /** `part` occurs somewhere inside `text`. */
  predicate Contains(text: string, part: string) {
    exists i, j :: 0 <= i <= j <= |text| && text[i..j] == part
  }

  lemma ContainsInfix(before: string, part: string, after: string)
    ensures Contains(before + part + after, part)
  {
    var text := before + part + after;
    assert text[|before|..|before| + |part|] == part;
  }

  lemma ContainsSuffix(before: string, part: string)
    ensures Contains(before + part, part)
  {
    assert (before + part)[|before|..|before + part|] == part;
  }
}

=== FILE: user_tests.dfy ===
/** The user family of smoke tests: create, get, update and delete a user,
    and log in with a fixed account. */
module UserTests {
  import opened Model
  import opened Text

  /** The labels the tests put on their results. */
  const CreateUserName: string := "Create User"
  const GetUserName: string := "Get User by Name"
  const UpdateUserName: string := "Update User"
  const DeleteUserName: string := "Delete User"
  const LoginName: string := "User Login"

  /** Generated usernames: the fixed prefix followed by decimal digits. */
  predicate IsGeneratedName(u: string) {
    |u| > |UserPrefix| && u[..|UserPrefix|] == UserPrefix && AllDigits(u[|UserPrefix|..])
  }

  /** The name create-user and delete-user generate from a clock reading. */
  function GeneratedName(stamp: nat): (name: string)
    ensures IsGeneratedName(name)
  {
    UserPrefix + FromNat(stamp)
  }

  /** Two readings give the same name exactly when they are the same reading. */
  lemma GeneratedNameInjective(a: nat, b: nat)
    ensures GeneratedName(a) == GeneratedName(b) <==> a == b
  {
    PrefixedInjective(UserPrefix, a, b);
  }

  /** The fixed account user-login tries. */
  const LoginUser: string := "testuser"
  const LoginPassword: string := "password123"

  /** Create user: the generated name goes into the session before the call
      is made, so the session holds it whatever the call does. */
  function CreateUser(s: Session, input: CreateInput): (step: Step)
    ensures step.session == s.(username := GeneratedName(input.stamp))
    ensures step.requests == [PostUser(GeneratedName(input.stamp))]
    ensures Records(step.result, input.outcome)
    ensures step.result.testName == CreateUserName
    ensures step.result.status == Judge(input.outcome, OK, true)
    ensures Measured(step.result, input.window)
    ensures input.outcome.Thrown? ==> ReportsException(step.result, input.outcome.reason)
  {
    var user := GeneratedName(input.stamp);
    var result := (
      match input.outcome
      case Thrown(reason) => Caught(CreateUserName, input.window, reason, None, None)
      case Response(code, body) =>
        if code == OK then
          Completed(CreateUserName, input.window, Passed, code, "User '" + user + "' created successfully", Some(body))
        else
          Completed(CreateUserName, input.window, Failed, code, "Failed to create user", Some(body)));
    Step(s.(username := user), result, [PostUser(user)])
  }

  /** A passing create-user reports the name it created. */
  lemma CreateUserReportsName(s: Session, input: CreateInput)
    requires Succeeds(input.outcome, OK)
    ensures CreateUser(s, input).result.status == Passed
    ensures Contains(CreateUser(s, input).result.message, GeneratedName(input.stamp))
  {
    ContainsInfix("User '", GeneratedName(input.stamp), "' created successfully");
  }

  /** Two create-user runs with different clock readings leave different
      names, and the session holds the second one. */
  lemma CreateUserTwice(s: Session, first: CreateInput, second: CreateInput)
    requires first.stamp != second.stamp
    ensures CreateUser(CreateUser(s, first).session, second).session.username == GeneratedName(second.stamp)
    ensures CreateUser(s, first).session.username != CreateUser(CreateUser(s, first).session, second).session.username
  {
    GeneratedNameInjective(first.stamp, second.stamp);
  }

  /** Get user: create-user always runs first and the fetch asks for the name
      it just created; a pass reports the first name read from the body. */
  function GetUser(s: Session, window: Window, setup: CreateInput, fetch: Outcome, firstName: Parsed<string>): (step: Step)
    ensures step.session == s.(username := GeneratedName(setup.stamp))
    ensures step.result.status == AfterSetup(Judge(setup.outcome, OK, true), Judge(fetch, OK, firstName.Parsed?))
    ensures !Succeeds(setup.outcome, OK) ==>
      && step.requests == [PostUser(GeneratedName(setup.stamp))]
      && step.result == Aborted(GetUserName, "Failed to create user for get test", None)
    ensures Succeeds(setup.outcome, OK) ==>
      && step.requests == [PostUser(GeneratedName(setup.stamp)), FetchUser(GeneratedName(setup.stamp))]
      && Measured(step.result, window)
    ensures Succeeds(setup.outcome, OK) && fetch.Thrown? ==> ReportsException(step.result, fetch.reason)
    ensures Succeeds(setup.outcome, OK) && Succeeds(fetch, OK) && firstName.Unparsable? ==>
      && ReportsException(step.result, firstName.reason)
      && step.result.statusCode == Some(OK)
    ensures Succeeds(setup.outcome, OK) ==> Records(step.result, fetch)
    ensures step.result.testName == GetUserName
  {
    var made := CreateUser(s, setup);
    if made.result.status != Passed then
      Step(made.session, Aborted(GetUserName, "Failed to create user for get test", None), made.requests)
    else
      var result := (
        match fetch
        case Thrown(reason) => Caught(GetUserName, window, reason, None, None)
        case Response(code, body) =>
          if code != OK then Completed(GetUserName, window, Failed, code, "Failed to get user", Some(body))
          else
            match firstName
            case Unparsable(reason) => Caught(GetUserName, window, reason, Some(code), Some(body))
            case Parsed(first) => Completed(GetUserName, window, Passed, code, "Successfully retrieved user: " + first, Some(body)));
      Step(made.session, result, made.requests + [FetchUser(made.session.username)])
  }

  /** A passing get-user reports the first name read from the body. */
  lemma GetUserReportsName(s: Session, window: Window, setup: CreateInput, fetch: Outcome, firstName: Parsed<string>)
    requires Succeeds(setup.outcome, OK) && Succeeds(fetch, OK) && firstName.Parsed?
    ensures GetUser(s, window, setup, fetch, firstName).result.status == Passed
    ensures Contains(GetUser(s, window, setup, fetch, firstName).result.message, firstName.value)
  {
    ContainsSuffix("Successfully retrieved user: ", firstName.value);
  }

  /** Update user: create-user always runs first and the update targets the
      name it just created. */
  function UpdateUser(s: Session, window: Window, setup: CreateInput, update: Outcome): (step: Step)
    ensures step.session == s.(username := GeneratedName(setup.stamp))
    ensures step.result.status == AfterSetup(Judge(setup.outcome, OK, true), Judge(update, OK, true))
    ensures !Succeeds(setup.outcome, OK) ==>
      && step.requests == [PostUser(GeneratedName(setup.stamp))]
      && step.result == Aborted(UpdateUserName, "Failed to create user for update test", None)
    ensures Succeeds(setup.outcome, OK) ==>
      && step.requests == [PostUser(GeneratedName(setup.stamp)), PutUser(GeneratedName(setup.stamp))]
      && Measured(step.result, window)
    ensures Succeeds(setup.outcome, OK) && update.Thrown? ==> ReportsException(step.result, update.reason)
    ensures Succeeds(setup.outcome, OK) ==> Records(step.result, update)
    ensures step.result.testName == UpdateUserName
  {
    var made := CreateUser(s, setup);
    if made.result.status != Passed then
      Step(made.session, Aborted(UpdateUserName, "Failed to create user for update test", None), made.requests)
    else
      var result := (
        match update
        case Thrown(reason) => Caught(UpdateUserName, window, reason, None, None)
        case Response(code, body) =>
          if code == OK then
            Completed(UpdateUserName, window, Passed, code, "User updated successfully to Jane Smith", Some(body))
          else
            Completed(UpdateUserName, window, Failed, code, "Failed to update user", Some(body)));
      Step(made.session, result, made.requests + [PutUser(made.session.username)])
  }

  /** Delete user: create-user always runs first and the delete targets the
      name it just created; a 200 then replaces the session's name with one
      generated from a later clock reading. */
  function DeleteUser(s: Session, window: Window, setup: CreateInput, del: Outcome, restamp: nat): (step: Step)
    ensures step.session.petId == s.petId && step.session.orderId == s.orderId
    ensures step.result.status == AfterSetup(Judge(setup.outcome, OK, true), Judge(del, OK, true))
    ensures step.session.username ==
      (if Succeeds(setup.outcome, OK) && Succeeds(del, OK) then GeneratedName(restamp) else GeneratedName(setup.stamp))
    ensures !Succeeds(setup.outcome, OK) ==>
      && step.requests == [PostUser(GeneratedName(setup.stamp))]
      && step.result == Aborted(DeleteUserName, "Failed to create user for delete test", None)
    ensures Succeeds(setup.outcome, OK) ==>
      && step.requests == [PostUser(GeneratedName(setup.stamp)), RemoveUser(GeneratedName(setup.stamp))]
      && Measured(step.result, window)
    ensures Succeeds(setup.outcome, OK) && del.Thrown? ==> ReportsException(step.result, del.reason)
    ensures Succeeds(setup.outcome, OK) ==> Records(step.result, del)
    ensures step.result.testName == DeleteUserName
  {
    var made := CreateUser(s, setup);
    if made.result.status != Passed then
      Step(made.session, Aborted(DeleteUserName, "Failed to create user for delete test", None), made.requests)
    else
      var doomed := made.session.username;
      var requests := made.requests + [RemoveUser(doomed)];
      match del
      case Thrown(reason) => Step(made.session, Caught(DeleteUserName, window, reason, None, None), requests)
      case Response(code, body) =>
        if code == OK then
          Step(made.session.(username := GeneratedName(restamp)),
               Completed(DeleteUserName, window, Passed, code, "User '" + doomed + "' deleted successfully", Some(body)),
               requests)
        else
          Step(made.session, Completed(DeleteUserName, window, Failed, code, "Failed to delete user", Some(body)), requests)
  }

  /** A passing delete-user names the user it deleted, not the one it
      generated afterwards; the two differ when the clock moved on. */
  lemma DeleteUserReportsDeletedName(s: Session, window: Window, setup: CreateInput, del: Outcome, restamp: nat)
    requires Succeeds(setup.outcome, OK) && Succeeds(del, OK)
    ensures Contains(DeleteUser(s, window, setup, del, restamp).result.message, GeneratedName(setup.stamp))
    ensures restamp != setup.stamp ==>
      DeleteUser(s, window, setup, del, restamp).session.username != GeneratedName(setup.stamp)
  {
    ContainsInfix("User '", GeneratedName(setup.stamp), "' deleted successfully");
    GeneratedNameInjective(restamp, setup.stamp);
  }

  /** User login: tries the fixed account, not the session's user, and
      leaves the session alone. */
  function UserLogin(s: Session, window: Window, login: Outcome): (step: Step)
    ensures step.session == s
    ensures step.requests == [Login(LoginUser, LoginPassword)]
    ensures step.result.status == Judge(login, OK, true)
    ensures Measured(step.result, window)
    ensures login.Thrown? ==> ReportsException(step.result, login.reason)
    ensures Records(step.result, login)
    ensures step.result.testName == LoginName
  {
    var result := (
      match login
      case Thrown(reason) => Caught(LoginName, window, reason, None, None)
      case Response(code, body) =>
        if code == OK then
          Completed(LoginName, window, Passed, code, "User logged in successfully", Some(body))
        else
          Completed(LoginName, window, Failed, code, "Login failed", Some(body)));
    Step(s, result, [Login(LoginUser, LoginPassword)])
  }
}
